=== FILE: README.md ===
# calculus.js core, modelled in Dafny

This project models the computational core of `calculus.js`, the page
script of an interactive AP Calculus notes site. It covers the following:

- **Integer helpers.** `mod` is the sign-correcting remainder and
  `factorial` is the counting loop.
- **`removeFromArray`.** It deletes the first occurrence of a value and
  reports whether anything was removed.
- **Thousands separators.** When |number| >= 1000, `formatRealNum` splits
  the fixed-point rendering at '.' and applies `/\B(?=(\d{3})+(?!\d))/g`
  to the integer part. Below 1e21 that part is a digit string, and the regex
  puts a comma before every position except the first that has a positive
  multiple of three digits to its right. From 1e21 on the part is in
  exponential form, which the regex leaves unchanged. The fraction is kept
  as it is, and below 1000 the rendering is used unchanged.
- **The digits-of-e widget.** This covers the series loop of
  `calcDigitsOfE`, its chunked continuation `calcDigitsOfEChunk`, and the
  comparison of the rendering with the reference digits in
  `calcDigitsOfEFinished`.
- **The summation engine.**
  - `riemannSumLoop`.
  - The four rules of `riemannSum`.
  - The chunked progress path, which splits n points into floor(n / c)
    chunks of c points plus a final n % c.
- **Page flipping.** `pageFlipToggle` keeps one page counter per lesson and
  a set of shown page elements.
- **Section search.** `searchForSection` normalises the query and the
  titles, then collects matching section ids in order.
- **Keyboard shortcuts.** `keyToUnit` maps one key to a unit id.

Arithmetic is exact. Integers are unbounded and reals are exact rationals.
Big-number addition and division in the e series are function parameters,
as are the integrand of a Riemann sum and the per-character lower-casing of
the search. The proofs hold for every choice of these parameters, with one
exception: `NormalizeIdempotent` assumes a lower-casing that is idempotent
and leaves the straight apostrophe and the space unchanged.
JavaScript's `%` is written out as the truncating remainder it is.

Files (one module each):

| file | module |
|---|---|
| `js_math.dfy` | `JsMath`: `mod`, `factorial` |
| `array_util.dfy` | `ArrayUtil`: `indexOf` on arrays, `removeFromArray`, subsequences |
| `number_format.dfy` | `NumberFormat`: comma grouping, `split`, comma removal |
| `digits_of_e.dfy` | `DigitsOfE`: series loop, chunks, finishing step |
| `riemann.dfy` | `Riemann`: sample points, sums, chunked path, trapezoid loop |
| `trapezoid_exact.dfy` | `TrapezoidExact`: exactness of the trapezoid rule on affine integrands |
| `page_flip.dfy` | `PageFlip` |
| `js_string.dfy` | `JsString`: `includes`, `indexOf`, string `replace` of the first match |
| `section_search.dfy` | `SectionSearch` |
| `keyboard.dfy` | `Keyboard`: `keyToUnit` as written and corrected |

## Model

| member | source | states |
|---|---|---|
| JsMath.TruncRem | calculus.js:72-75 | JavaScript's `x % y` is strictly smaller in magnitude than y and carries the sign of the dividend |
| JsMath.Mod | calculus.js:72-75 | `mod(x, y)` lies in [0, y) for positive y and in (y, 0] for negative y, negative x included |
| JsMath.JsMod | calculus.js:72-75 | `mod` is NaN exactly when y is 0, and otherwise lies in the range that y's sign selects |
| JsMath.ModCongruent | calculus.js:72-75 | `mod(x, y)` differs from x by a whole multiple of y |
| JsMath.ModIsEuclidean | calculus.js:72-75 | for positive y, `mod` is the mathematical remainder, which is the fix the comment at line 73 intends |
| JsMath.Factorial | calculus.js:77-83 | the loop returns n! for n >= 0 and 1 for n <= 0, and the result is at least 1 |
| ArrayUtil.IndexOf | calculus.js:2043 | `indexOf` gives -1 exactly when the value is absent, otherwise the position of its first occurrence |
| ArrayUtil.RemoveFromArray | calculus.js:2041-2049 | reports true exactly when the value occurs; if it does not, the array is unchanged; if it does, exactly its first occurrence is cut out |
| ArrayUtil.RemoveFromArrayMultiset | calculus.js:2041-2049 | after a removal the elements are the old multiset minus one copy of the value, and the length drops by one |
| ArrayUtil.RemoveFromArrayKeepsOrder | calculus.js:2041-2049 | the remaining elements keep their relative order (a subsequence of the original) |
| NumberFormat.GroupDigits | calculus.js:2317 | one to three characters are left alone; on digit strings GroupDigitsMatchesRegex ties it to the regex, and GroupDigitsRoundTrip and GroupDigitsShape characterise its output |
| NumberFormat.RegexReplace | calculus.js:2317 | `replace(/\B(?=(\d{3})+(?!\d))/g, ',')` on any string: a comma before each position where `\B` holds (`NonBoundary`) and 3k digits followed by a non-digit or the end come next (`GroupsFollow`); the result keeps every character and adds at most one comma per character |
| NumberFormat.RegexMatchOnDigits | calculus.js:2317 | on a digit string, `/\B(?=(\d{3})+(?!\d))/g` matches exactly at the positions other than the first with a positive multiple of three digits after them |
| NumberFormat.RegexReplaceOnDigits | calculus.js:2317 | on a digit string, the regex replacement equals the comma placement by position alone |
| NumberFormat.GroupDigitsMatchesRegex | calculus.js:2317 | on a digit string, grouping from the right in threes gives exactly the result of the regex replacement |
| NumberFormat.RegexReplaceRoundTrip | calculus.js:2317 | the regex replacement only inserts commas: deleting them gives back any comma-free input |
| NumberFormat.ExponentialFormUnchanged | calculus.js:2316-2317 | every exponential-form integer part that `toFixed` gives from 1e21 on, one digit followed by "e+" and a two- or three-digit exponent, contains no match, so the replacement leaves it unchanged |
| NumberFormat.GroupDigitsRoundTrip | calculus.js:2317 | deleting the inserted commas gives back the digit string |
| NumberFormat.GroupDigitsShape | calculus.js:2317 | the comma-separated groups concatenate to the digits; the first group has 1-3 digits and every later one exactly 3 |
| NumberFormat.Split | calculus.js:2316 | `split('.')` yields at least one part and no part holds the separator; the first part is the prefix up to the first separator |
| NumberFormat.SplitJoin | calculus.js:2316 | splitting a + sep + b is splitting a followed by splitting b |
| NumberFormat.Join | calculus.js:2318 | `parts.join(sep)` puts one separator between neighbouring parts, so the result starts with the first part; JoinSplit makes it the inverse of `split` |
| NumberFormat.JoinSplit | calculus.js:2316-2318 | `join` undoes `split`: joining the parts of s with the separator gives back s |
| NumberFormat.JoinReplaceHead | calculus.js:2317-2318 | replacing the first part and joining replaces exactly the text before the first separator |
| NumberFormat.InsertCommas | calculus.js:2314-2322 | below 1000 the rendering is unchanged; otherwise the result is the regex-rewritten text before the first '.' followed by the rest of the rendering, unchanged, and when that text is all digits it is grouped in threes from the right |
| NumberFormat.InsertCommasRoundTrip | calculus.js:2313-2322 | the comma step of `formatRealNum` only adds commas to the integer part: removing them restores the fixed-point rendering, and below 1000 the rendering is untouched |
| DigitsOfE.SumDirect | calculus.js:281-287 | the direct loop performs the add/divide step once for each index 0..degree, in order |
| DigitsOfE.CalcChunk | calculus.js:296-308 | chunk after chunk, each covering index..min(index + chunkSize - 1, degree), yields the same value as one pass over the remaining indices up to degree |
| DigitsOfE.CalcDigitsOfE | calculus.js:264-294 | the direct path (degree < 2000) and the chunked path hand the same sum to the finishing step |
| DigitsOfE.ChunkSize | calculus.js:265-273 | the chunk size is 500, 200 or 100: 500 exactly below degree 10000, 100 exactly from degree 25000 on |
| DigitsOfE.ExactSumIsPartialE | calculus.js:281-287 | with exact arithmetic the loop's sum after n steps is 1/0! + ... + 1/(n-1)! and its running term is 1/n! |
| DigitsOfE.EStrLength | calculus.js:234 | the reference digits have 502 characters, the length the finishing step compares against |
| DigitsOfE.LongestCommonPrefix | calculus.js:315-322 | the result is a prefix of both strings and cannot be extended |
| DigitsOfE.MatchingPrefix | calculus.js:312-322 | the comparison loop with its `break` yields the longest common prefix of the rendering and the reference |
| DigitsOfE.TrimTrailingDot | calculus.js:327 | `replace(/\.$/, '')` removes one final '.' and nothing else; a string not ending in '.' is unchanged |
| DigitsOfE.DigitsOfEFinished | calculus.js:310-331 | a rendering longer than 502 characters loses exactly its last two; otherwise the digits are the agreeing prefix minus a trailing '.'; the count shown is max(0, length of digits - 2) |
| Riemann.RiemannSumLoop | calculus.js:2419-2426 | the loop adds f at the points x, x + w, ..., reached by repeated `x += width` |
| Riemann.ChunkedSamplesCover | calculus.js:2474-2485 | floor(n / c) chunks of c points followed by n % c points are exactly the n points |
| Riemann.CalculateChunk | calculus.js:2474-2485 | `calculateChunk`, continued to its end, adds up f over all n points, the same total as one loop |
| Riemann.ChunkedRiemann | calculus.js:2469-2486 | the chunked progress path sums the same points as the direct loop |
| Riemann.PanelsAreEndpointMean | calculus.js:2456-2466 | the trapezoid heights, panel by panel, equal the mean of the left-endpoint and right-endpoint sums |
| Riemann.TrapezoidLoop | calculus.js:2456-2466 | the trapezoid loop's area is that mean times the width |
| Riemann.EndpointSum | calculus.js:2469-2494 | the left, right and midpoint rules give the same area with or without the progress path |
| Riemann.StartX | calculus.js:2447-2455 | the first point of the left, right and midpoint rules lies in [start, start + width]; only the left rule starts at start, and the midpoint is equally far from both ends |
| Riemann.RiemannSum | calculus.js:2435-2495 | the area for each rule: the sum from the rule's first point times the width, and for the trapezoid rule the mean of the left and right sums times the width |
| TrapezoidExact.TrapezoidExactOnAffine | calculus.js:2456-2466 | for f(y) = m y + k and any n >= 1, the trapezoid rule over [a, b] gives the exact integral m(b^2 - a^2)/2 + k(b - a) |
| PageFlip.InitialIsValid | calculus.js:4723-4731 | the initial counters are all 1 and lie within each lesson's last page |
| PageFlip.Redisplay | calculus.js:4751-4756 | after the hide/show loop, the new page is shown and every other page of the lesson is hidden; nothing else changes |
| PageFlip.PageFlipToggle | calculus.js:4733-4757 | 'next' at the last page and any other mode at page 1 do nothing; otherwise the counter moves by exactly one, stays in range, and only the new page of that lesson is shown; other lessons are untouched |
| PageFlip.NextThenPrevious | calculus.js:4733-4757 | flipping forward then back restores every counter and shows only the original page |
| JsString.Includes | calculus.js:4375 | `includes` holds exactly when the pattern occurs at some position |
| JsString.IndexOf | calculus.js:4963 | the search behind a string `replace` finds the first occurrence, or -1 when there is none |
| JsString.RemoveFirst | calculus.js:4963 | with no occurrence of a non-empty pattern the string is unchanged; otherwise it loses exactly the pattern's length and keeps its text before the first occurrence |
| JsString.RemoveFirstRestores | calculus.js:4963 | `replace('Unit', '')` deletes only the first occurrence: putting it back restores the string, and without an occurrence the string is unchanged |
| SectionSearch.Normalize | calculus.js:4363 | normalisation keeps the length and leaves no typographic apostrophe or hyphen |
| SectionSearch.NormalizeIdempotent | calculus.js:4363 | normalising twice is normalising once, provided lower-casing is idempotent and leaves the straight apostrophe and the space unchanged |
| SectionSearch.TitlesToCheck | calculus.js:4366-4370 | the strings checked are the title followed by the section's keywords when it has any, otherwise the title alone |
| SectionSearch.AnyIncludes | calculus.js:4372-4379 | the inner loop with `break` succeeds exactly when some title or keyword contains the query |
| SectionSearch.SearchForSection | calculus.js:4362-4382 | an id is reported exactly when its section matches, and results keep section order (a subsequence of the ids) |
| SectionSearch.SearchReportsEachIdOnce | calculus.js:4362-4382 | with distinct section ids, no id is reported twice |
| Keyboard.ParseKey | calculus.js:4943-4958 | the corrected branch chain gives a unit number in 0..11 exactly for the shortcut keys |
| Keyboard.KeyToUnitAsWritten | calculus.js:4943-4964 | as written, null comes back exactly for keys that are neither shortcut keys, digits, '-' nor JavaScript white space; a white-space key outside the two key rows throws |
| Keyboard.KeyToUnit | calculus.js:4943-4964 | the corrected function answers null exactly for non-shortcut keys, and never throws when there are at least 11 units |
| Keyboard.SpaceKeyThrows | calculus.js:4950-4951 | as written, the space key passes `isFinite`, `parseInt` gives NaN and the lookup throws |
| Keyboard.KeyToUnitAgreesOffWhiteSpace | calculus.js:4943-4964 | the correction changes the answer for white-space keys only |
| Keyboard.ColumnsAgree | calculus.js:4941-4964 | the shifted symbol, the letter and the digit in one keyboard column select the same unit, namely the unit in that column's position |

## Left out

- Floating point. Every number is an exact integer or rational, so rounding in `riemannSum`, in `x += width`, in `factorial` beyond 2^53 and in overflow to Infinity is not modelled.
- Big-number precision in `calcDigitsOfE`: the Lagrange error bound, `log10`, the precision setting and `toString` rendering. Addition and division are parameters, and the rendering is an input string of the finishing step.
- DOM output, `setTimeout`/`clearTimeout` scheduling, cancellation of a running computation, timing messages and progress text. Chunk continuations are modelled as plain recursion, one call per timer tick.
- `formatRealNum` outside the comma step: the `isFinite` guard, significant-figure capping, `toFixed`, scientific notation and the sign. The fixed-point rendering is an input string.
- `RiemannSum`: sum types other than the four rules are not modelled. In the source such a type leaves `x` undefined. `rectangles` must be at least 1, because 0 divides by zero in the source.
- `RiemannSum`: on the progress path the source displays the area instead of returning it. The model returns the displayed value.
- `GroupDigits`: groups by position and is meant for digit strings only. On other strings it differs from the regex; the comma step therefore applies `RegexReplace`, the regex's own reading, and uses `GroupDigits` only through `GroupDigitsMatchesRegex`.
- `RemoveFromArray`: the source mutates the caller's array in place with `splice`; the model returns the new contents together with the flag.
- `PageFlipToggle`: requires a known lesson. An unknown lesson name turns the counter into NaN in the source.
- `Factorial`: non-integer arguments are not modelled. The model's argument is an integer.
- `Mod`: requires a non-zero divisor. `JsMod` covers the zero case, which gives NaN.
- `Mod`: arguments are integers. The only caller (calculus.js:2759) passes real canvas coordinates and a real period, and the truncating remainder on reals is not modelled.
- `SearchForSection`: lower-casing is a per-character parameter. Length-changing or context-dependent case mappings (such as a final capital sigma) are not modelled.
- `SearchForSection`: the section list is a sequence in the object's key order.
- `KeyToUnit`: keys are single characters. Named keys such as "Enter" are not modelled.
- `DigitsOfEFinished`: takes the reference digits as a parameter instead of the 502-character constant. `EStrLength` ties the constant to the literal 502 in the code.
- The rest of `calculus.js` is not part of this model: other numerics such as `pSeriesSum`, `arcLength` and Euler's method, the simulations, the typesetting and the event wiring.

## Findings

| source | as written | input that shows it | evidently intended | confidence | as-written member | corrected member |
|---|---|---|---|---|---|---|
| calculus.js:4950-4951 | `isFinite(key)` admits white-space keys, because white space converts to 0; `parseInt(key)` then gives NaN, `unitElementIDs[NaN - 1]` is undefined and `.replace` throws a TypeError | key `' '` (the space bar) | only digit keys take the numeric branch; every other non-shortcut key yields null | high (not executed) | Keyboard.SpaceKeyThrows | Keyboard.KeyToUnitAgreesOffWhiteSpace |

=== FILE: array_util.dfy ===
/**
 * List bookkeeping: `Array.prototype.indexOf` and `removeFromArray`, which
 * deletes the first occurrence of a value in place and reports whether
 * anything was deleted. The in-place splice is modelled as returning the
 * new contents alongside the flag.
 */
module ArrayUtil {

  /** `array.indexOf(value)`: the first position holding value, or -1. */
  function IndexOf<T(==)>(a: seq<T>, v: T): (i: int)
    ensures -1 <= i < |a|
    ensures i == -1 <==> v !in a
    ensures 0 <= i ==> a[i] == v && v !in a[..i]
  {
    if |a| == 0 then -1
    else if a[0] == v then 0
    else
      var j := IndexOf(a[1..], v);
      if j == -1 then -1
      else
        assert a[..j + 1] == [a[0]] + a[1..][..j];
        j + 1
  }

  /** Outcome of `removeFromArray`: the returned flag and the array afterwards. */
  datatype Removal<T> = Removal(removed: bool, contents: seq<T>)

  /**
   * `removeFromArray(array, value)`: when value occurs, splice out its first
   * occurrence and answer true; otherwise leave the array alone and answer false.
   */
  function RemoveFromArray<T(==)>(a: seq<T>, v: T): (r: Removal<T>)
    ensures r.removed <==> v in a
    ensures !r.removed ==> r.contents == a
    ensures r.removed ==>
              exists i :: 0 <= i < |a| && a[i] == v && v !in a[..i] && r.contents == a[..i] + a[i + 1..]
  {
    var index := IndexOf(a, v);
    if index != -1 then
      Removal(true, a[..index] + a[index + 1..])
    else
      Removal(false, a)
  }

  /** Removal takes away exactly one copy of the value, and nothing else. */
  lemma RemoveFromArrayMultiset<T>(a: seq<T>, v: T)
    ensures var r := RemoveFromArray(a, v);
            multiset(r.contents) == multiset(a) - multiset{v}
            && (r.removed ==> |r.contents| == |a| - 1)
  {
    var r := RemoveFromArray(a, v);
    if r.removed {
      var i := IndexOf(a, v);
      assert a == a[..i] + [a[i]] + a[i + 1..];
      assert multiset(a) == multiset(a[..i]) + multiset{v} + multiset(a[i + 1..]);
    } else {
      assert multiset(a)[v] == 0;
    }
  }

  /** The elements left behind keep their relative order: the result is a subsequence of the input. */
  predicate IsSubsequence<T(==)>(s: seq<T>, t: seq<T>)
  {
    if |s| == 0 then true
    else if |t| == 0 then false
    else if s[0] == t[0] then IsSubsequence(s[1..], t[1..])
    else IsSubsequence(s, t[1..])
  }

  lemma {:induction false} SubsequenceOfSelf<T>(s: seq<T>)
    ensures IsSubsequence(s, s)
  {
    if |s| > 0 {
      SubsequenceOfSelf(s[1..]);
    }
  }

  /** Putting an extra element in front of the longer sequence keeps a subsequence one. */
  lemma {:induction false} SubsequencePrepend<T>(s: seq<T>, t: seq<T>, y: T)
    requires IsSubsequence(s, t)
    ensures IsSubsequence(s, [y] + t)
    decreases |s| + |t|, 1
  {
    assert ([y] + t)[1..] == t;
    if |s| > 0 && s[0] == y {
      SubsequenceDropHead(s, t);
    }
  }

  lemma {:induction false} SubsequenceDropHead<T>(s: seq<T>, t: seq<T>)
    requires |s| > 0 && IsSubsequence(s, t)
    ensures IsSubsequence(s[1..], t)
    decreases |s| + |t|, 0
  {
    if s[0] == t[0] {
      SubsequencePrepend(s[1..], t[1..], t[0]);
      assert [t[0]] + t[1..] == t;
    } else {
      SubsequenceDropHead(s, t[1..]);
      SubsequencePrepend(s[1..], t[1..], t[0]);
      assert [t[0]] + t[1..] == t;
    }
  }

  lemma {:induction false} SkipOne<T>(p: seq<T>, x: T, q: seq<T>)
    ensures IsSubsequence(p + q, p + [x] + q)
  {
    if |p| == 0 {
      assert p + q == q;
      assert p + [x] + q == [x] + q;
      SubsequenceOfSelf(q);
      SubsequencePrepend(q, q, x);
    } else {
      assert (p + q)[1..] == p[1..] + q;
      assert (p + [x] + q)[1..] == p[1..] + [x] + q;
      SkipOne(p[1..], x, q);
    }
  }

  /** The other elements keep their order. */
  lemma RemoveFromArrayKeepsOrder<T>(a: seq<T>, v: T)
    ensures IsSubsequence(RemoveFromArray(a, v).contents, a)
  {
    var r := RemoveFromArray(a, v);
    if r.removed {
      var i := IndexOf(a, v);
      assert a == a[..i] + [a[i]] + a[i + 1..];
      SkipOne(a[..i], a[i], a[i + 1..]);
    } else {
      SubsequenceOfSelf(a);
    }
  }
}

=== FILE: digits_of_e.dfy ===
/**
 * The digits-of-e widget: the partial sum 1/0! + 1/1! + ... + 1/degree! is
 * accumulated with a running term that is divided by i + 1 after step i,
 * either in one loop (degree < 2000) or in fixed-size chunks, one chunk per
 * timer tick. Big-number addition and division are parameters, so the
 * equivalence of the two loop shapes holds for any arithmetic. The
 * finishing step compares the decimal rendering with a reference string.
 */
module DigitsOfE {
  import JsMath

  /** The two running values of the summation loop. */
  datatype Acc<T> = Acc(result: T, term: T)

  /** One iteration at index i: add the term to the sum, then divide the term by i + 1. */
  function Step<T>(add: (T, T) -> T, divide: (T, int) -> T, a: Acc<T>, i: nat): Acc<T>
  {
    Acc(add(a.result, a.term), divide(a.term, i + 1))
  }

  /** The indices lo, lo + 1, ..., hi - 1 in increasing order. */
  function Range(lo: nat, hi: nat): (r: seq<nat>)
    requires lo <= hi
    ensures |r| == hi - lo
    ensures forall k :: 0 <= k < |r| ==> r[k] == lo + k
    decreases hi - lo
  {
    if lo == hi then [] else [lo] + Range(lo + 1, hi)
  }

  lemma RangeAppend(lo: nat, mid: nat, hi: nat)
    requires lo <= mid <= hi
    ensures Range(lo, mid) + Range(mid, hi) == Range(lo, hi)
  {
  }

  /** Running the step over the given indices, in the order given. */
  function Fold<T>(add: (T, T) -> T, divide: (T, int) -> T, a: Acc<T>, indices: seq<nat>): Acc<T>
    decreases |indices|
  {
    if |indices| == 0 then a
    else Fold(add, divide, Step(add, divide, a, indices[0]), indices[1..])
  }

  lemma {:induction false} FoldAppend<T>(add: (T, T) -> T, divide: (T, int) -> T, a: Acc<T>, xs: seq<nat>, ys: seq<nat>)
    ensures Fold(add, divide, a, xs + ys) == Fold(add, divide, Fold(add, divide, a, xs), ys)
    decreases |xs|
  {
    if |xs| > 0 {
      assert (xs + ys)[1..] == xs[1..] + ys;
      FoldAppend(add, divide, Step(add, divide, a, xs[0]), xs[1..], ys);
    } else {
      assert xs + ys == ys;
    }
  }

  /** The single loop of `calcDigitsOfE`, used when degree < 2000. */
  method SumDirect<T>(add: (T, T) -> T, divide: (T, int) -> T, zero: T, one: T, degree: nat)
    returns (result: T)
    ensures result == Fold(add, divide, Acc(zero, one), Range(0, degree + 1)).result
  {
    result := zero;
    var term := one;
    var i := 0;
    while i <= degree
      invariant i <= degree + 1
      invariant Acc(result, term) == Fold(add, divide, Acc(zero, one), Range(0, i))
    {
      FoldAppend(add, divide, Acc(zero, one), Range(0, i), [i]);
      RangeAppend(0, i, i + 1);
      assert Range(i, i + 1) == [i];
      assert Fold(add, divide, Acc(result, term), [i]) == Step(add, divide, Acc(result, term), i);
      result := add(result, term);
      term := divide(term, i + 1);
      i := i + 1;
    }
  }

  function Min(a: int, b: int): int
  {
    if a <= b then a else b
  }

  /**
   * `calcDigitsOfEChunk`: run indices index .. min(index + chunkSize - 1, degree);
   * finish when that reached degree, otherwise continue at index + chunkSize
   * on the next tick. The value returned is what reaches the finishing step.
   */
  function CalcChunk<T>(add: (T, T) -> T, divide: (T, int) -> T, a: Acc<T>,
                        index: nat, degree: nat, chunkSize: nat): (r: T)
    requires chunkSize >= 1 && index <= degree
    ensures r == Fold(add, divide, a, Range(index, degree + 1)).result
    decreases degree - index
  {
    var last := Min(index + chunkSize - 1, degree);
    var a' := Fold(add, divide, a, Range(index, last + 1));
    if index + chunkSize - 1 >= degree then
      a'.result
    else
      var r := CalcChunk(add, divide, a', index + chunkSize, degree, chunkSize);
      FoldAppend(add, divide, a, Range(index, index + chunkSize), Range(index + chunkSize, degree + 1));
      RangeAppend(index, index + chunkSize, degree + 1);
      r
  }

  /** Chunk size by degree: smaller chunks for longer sums. */
  function ChunkSize(degree: nat): (c: nat)
    ensures c == 500 || c == 200 || c == 100
    ensures degree < 10000 <==> c == 500
    ensures degree >= 25000 <==> c == 100
  {
    if degree < 10000 then 500
    else if degree < 25000 then 200
    else 100
  }

  /**
   * `calcDigitsOfE`: both the direct loop and the chunked continuation
   * perform the add/divide steps for indices 0 .. degree, once each and in
   * increasing order, so the sum reaching the finishing step is the same.
   */
  method CalcDigitsOfE<T>(add: (T, T) -> T, divide: (T, int) -> T, zero: T, one: T, degree: nat)
    returns (result: T)
    ensures result == Fold(add, divide, Acc(zero, one), Range(0, degree + 1)).result
  {
    if degree < 2000 {
      result := SumDirect(add, divide, zero, one, degree);
    } else {
      result := CalcChunk(add, divide, Acc(zero, one), 0, degree, ChunkSize(degree));
    }
  }

  /** Exact rational arithmetic: the partial sum of 1/k! for k < n. */
  function PartialE(n: nat): real
  {
    if n == 0 then 0.0 else PartialE(n - 1) + 1.0 / (JsMath.Fact(n - 1) as real)
  }

  function RealAdd(x: real, y: real): real
  {
    x + y
  }

  function RealDivide(x: real, k: int): real
  {
    if k == 0 then 0.0 else x / (k as real)
  }

  /**
   * With exact addition and division, after steps 0 .. n - 1 the sum is
   * 1/0! + ... + 1/(n-1)! and the running term is 1/n!.
   */
  lemma {:induction false} ExactSumIsPartialE(n: nat)
    ensures Fold(RealAdd, RealDivide, Acc(0.0, 1.0), Range(0, n)) == Acc(PartialE(n), 1.0 / (JsMath.Fact(n) as real))
  {
    if n > 0 {
      ExactSumIsPartialE(n - 1);
      RangeAppend(0, n - 1, n);
      FoldAppend(RealAdd, RealDivide, Acc(0.0, 1.0), Range(0, n - 1), [n - 1]);
      assert Range(n - 1, n) == [n - 1];
      var prev := Acc(PartialE(n - 1), 1.0 / (JsMath.Fact(n - 1) as real));
      assert Fold(RealAdd, RealDivide, prev, [n - 1]) == Step(RealAdd, RealDivide, prev, n - 1);
      TermRecurrence(n);
    }
  }

  /** Dividing 1/(n-1)! by n gives 1/n!. */
  lemma TermRecurrence(n: nat)
    requires n >= 1
    ensures RealDivide(1.0 / (JsMath.Fact(n - 1) as real), n) == 1.0 / (JsMath.Fact(n) as real)
  {
    var f := JsMath.Fact(n - 1) as real;
    var m := n as real;
    assert JsMath.Fact(n) as real == f * m;
    assert f > 0.0 && m > 0.0;
    ReciprocalProduct(f, m);
  }

  lemma ReciprocalProduct(f: real, m: real)
    requires f > 0.0 && m > 0.0
    ensures (1.0 / f) / m == 1.0 / (f * m)
  {
    var q := (1.0 / f) / m;
    assert q * m == 1.0 / f;
    assert q * m * f == 1.0;
    assert q * (f * m) == 1.0;
  }

  // ---------------------------------------------------------------------
  // Finishing step
  // ---------------------------------------------------------------------

  /** The reference digits of e used by the finishing step (502 characters). */
  const EStr: string := "2.71828182845904523536028747135266249775724709369995957496696762772407663035354759457138217852516642742746639193200305992181741359662904357290033429526059563073813232862794349076323382988075319525101901157383418793070215408914993488416750924476146066808226480016847741185374234544243710753907774499206955170276183860626133138458300075204493382656029760673711320070932870912744374704723069697720931014169283681902551510865746377211125238978442505695369677078544996996794686445490598793163688923009879312"

  lemma EStrLength()
    ensures |EStr| == 502
  {
  }

  /** The longest common prefix of two strings. */
  function LongestCommonPrefix(a: string, b: string): (p: string)
    ensures |p| <= |a| && |p| <= |b|
    ensures p == a[..|p|] && p == b[..|p|]
    ensures |p| == |a| || |p| == |b| || a[|p|] != b[|p|]
  {
    if |a| == 0 || |b| == 0 || a[0] != b[0] then ""
    else [a[0]] + LongestCommonPrefix(a[1..], b[1..])
  }

  /** `replace(/\.$/, '')`: drop one trailing '.', if there is one. */
  function TrimTrailingDot(s: string): (r: string)
    ensures |s| > 0 && s[|s| - 1] == '.' ==> r + "." == s
    ensures !(|s| > 0 && s[|s| - 1] == '.') ==> r == s
  {
    if |s| > 0 && s[|s| - 1] == '.' then s[..|s| - 1] else s
  }

  /**
   * The comparison loop of the finishing step: walk the reference, append
   * each character the rendering agrees with, stop at the first mismatch or
   * when the rendering runs out.
   */
  method MatchingPrefix(resultStr: string, reference: string) returns (outputStr: string)
    ensures outputStr == LongestCommonPrefix(resultStr, reference)
  {
    outputStr := "";
    var i := 0;
    while i < |reference|
      invariant i <= |reference| && i <= |resultStr|
      invariant outputStr == reference[..i] && resultStr[..i] == reference[..i]
    {
      if i < |resultStr| && resultStr[i] == reference[i] {
        assert reference[..i + 1] == reference[..i] + [reference[i]];
        assert resultStr[..i + 1] == resultStr[..i] + [resultStr[i]];
        outputStr := outputStr + [reference[i]];
        i := i + 1;
      } else {
        break;
      }
    }
    CommonPrefixUnique(resultStr, reference, outputStr);
  }

  /**
   * A common prefix that ends where one string ends or the two disagree is
   * the longest one.
   */
  lemma CommonPrefixUnique(a: string, b: string, p: string)
    requires |p| <= |a| && |p| <= |b| && p == a[..|p|] && p == b[..|p|]
    requires |p| == |a| || |p| == |b| || a[|p|] != b[|p|]
    ensures p == LongestCommonPrefix(a, b)
  {
    var q := LongestCommonPrefix(a, b);
    assert |p| == |q|;
  }

  /** What the finishing step displays: the digits and the digit count in the message. */
  datatype Finished = Finished(digits: string, count: nat)

  /**
   * `calcDigitsOfEFinished`: for a rendering of at most 502 characters,
   * keep the characters that agree with the reference (minus a trailing
   * '.'); for a longer one, drop its last two characters. The count shown
   * is max(0, |digits| - 2).
   */
  method DigitsOfEFinished(resultStr: string, reference: string) returns (f: Finished)
    ensures |resultStr| > 502 ==> f.digits + resultStr[|resultStr| - 2..] == resultStr
    ensures |resultStr| <= 502 ==> f.digits == TrimTrailingDot(LongestCommonPrefix(resultStr, reference))
    ensures |resultStr| <= 502 ==> f.digits <= resultStr && f.digits <= reference
    ensures f.count + 2 == |f.digits| || (f.count == 0 && |f.digits| < 2)
  {
    var outputStr := MatchingPrefix(resultStr, reference);
    var digits;
    if |resultStr| > 502 {
      digits := resultStr[..|resultStr| - 2];
    } else {
      digits := TrimTrailingDot(outputStr);
    }
    var count := if |digits| - 2 > 0 then |digits| - 2 else 0;
    f := Finished(digits, count);
  }
}

=== FILE: js_math.dfy ===
/**
 * Integer helpers of the calculus page script: the sign-correcting `mod`
 * and the iterative `factorial`. JavaScript numbers are modelled as
 * unbounded integers; JavaScript's `%` operator is written out as the
 * truncating remainder it is (the sign of the result follows the dividend),
 * because Dafny's own `%` is Euclidean.
 */
module JsMath {

  function Abs(x: int): (r: int)
    ensures r >= 0 && (r == x || r == -x)
  {
    if x < 0 then -x else x
  }

  /** d is a whole multiple of m. */
  predicate Divides(m: int, d: int)
    requires m > 0
  {
    d % m == 0
  }

  /** JavaScript's `x % y` on integral operands: truncation toward zero. */
  function TruncRem(x: int, y: int): (r: int)
    requires y != 0
    ensures -Abs(y) < r < Abs(y)
    ensures x >= 0 ==> r >= 0
    ensures x <= 0 ==> r <= 0
  {
    if x >= 0 then x % Abs(y) else -((-x) % Abs(y))
  }

  /** `mod(x, y) = ((x % y) + y) % y`: a remainder that takes the sign of y. */
  function Mod(x: int, y: int): (r: int)
    requires y != 0
    ensures y > 0 ==> 0 <= r < y
    ensures y < 0 ==> y < r <= 0
  {
    TruncRem(TruncRem(x, y) + y, y)
  }

  /** A JavaScript number as far as `mod` is concerned: an integer or NaN. */
  datatype JsNumber = Finite(value: int) | NaN

  /** `mod(x, y)` on every integer pair: a zero divisor makes `%` produce NaN. */
  function JsMod(x: int, y: int): (r: JsNumber)
    ensures r.NaN? <==> y == 0
    ensures y > 0 ==> r.Finite? && 0 <= r.value < y
    ensures y < 0 ==> r.Finite? && y < r.value <= 0
  {
    if y == 0 then NaN else Finite(Mod(x, y))
  }

  /** The quotient/remainder pair with 0 <= r < m is unique. */
  lemma EuclideanUnique(x: int, m: int, k: int, r: int)
    requires m > 0 && 0 <= r < m && x == k * m + r
    ensures x % m == r && x / m == k
  {
    var q, s := x / m, x % m;
    assert x == q * m + s;
    assert (k - q) * m == s - r;
    if k > q {
      MulAtLeast(k - q, m);
    } else if k < q {
      MulAtLeast(q - k, m);
    }
  }

  lemma MulAtLeast(a: int, m: int)
    requires a >= 1 && m > 0
    ensures a * m >= m
  {
    assert a * m == (a - 1) * m + m;
  }

  /** Adding whole multiples of m leaves the remainder unchanged. */
  lemma ModShift(x: int, k: int, m: int)
    requires m > 0
    ensures (x + k * m) % m == x % m
  {
    var q := x / m;
    assert x + k * m == (q + k) * m + x % m;
    EuclideanUnique(x + k * m, m, q + k, x % m);
  }

  /** JavaScript's remainder differs from the dividend by a multiple of the divisor. */
  lemma TruncRemCongruent(x: int, y: int)
    requires y != 0
    ensures Divides(Abs(y), x - TruncRem(x, y))
  {
    var m := Abs(y);
    var r := TruncRem(x, y);
    if x >= 0 {
      assert x == (x / m) * m + r;
      ModShift(0, x / m, m);
      assert x - r == 0 + (x / m) * m;
    } else {
      var q := (-x) / m;
      assert -x == q * m - r;
      ModShift(0, -q, m);
      assert x - r == 0 + (-q) * m;
    }
  }

  /** A multiple of m, written out as its quotient times m. */
  lemma MultipleOf(m: int, d: int)
    requires m > 0 && Divides(m, d)
    ensures d == (d / m) * m
  {
  }

  /** Sums and differences of multiples of m are multiples of m. */
  lemma CombineMultiples(m: int, a: int, b: int, s: int)
    requires m > 0
    ensures Divides(m, a * m + b * m - s * m)
  {
    assert a * m + b * m - s * m == 0 + (a + b - s) * m;
    ModShift(0, a + b - s, m);
  }

  /**
   * For every integer x and non-zero y, `mod(x, y)` differs from x by a
   * multiple of y, negative x included.
   */
  lemma {:induction false} ModCongruent(x: int, y: int)
    requires y != 0
    ensures Divides(Abs(y), x - Mod(x, y))
  {
    var m := Abs(y);
    var t := TruncRem(x, y);
    var r := Mod(x, y);
    TruncRemCongruent(x, y);
    TruncRemCongruent(t + y, y);
    MultipleOf(m, x - t);
    MultipleOf(m, t + y - r);
    var s := if y > 0 then 1 else -1;
    assert y == s * m;
    CombineMultiples(m, (x - t) / m, (t + y - r) / m, s);
  }

  /** For a positive modulus, `mod` is exactly the mathematical (Euclidean) remainder. */
  lemma ModIsEuclidean(x: int, y: int)
    requires y > 0
    ensures Mod(x, y) == x % y
  {
    var r := Mod(x, y);
    ModCongruent(x, y);
    var k := (x - r) / y;
    assert x - r == k * y;
    EuclideanUnique(x, y, k, r);
  }

  /** The mathematical factorial; 0! = 1. */
  function Fact(n: nat): (r: nat)
    ensures r >= 1
    ensures n >= 1 ==> r >= n
  {
    if n == 0 then 1 else n * Fact(n - 1)
  }

  /**
   * `factorial(n)`: the product 1 * 2 * ... * n computed by a counting loop.
   * For n <= 0 the loop body never runs and the result is 1.
   */
  method Factorial(n: int) returns (result: int)
    ensures n <= 0 ==> result == 1
    ensures n >= 0 ==> result == Fact(n)
    ensures result >= 1
  {
    result := 1;
    var i := 1;
    while i <= n
      invariant 1 <= i
      invariant n >= 0 ==> i <= n + 1
      invariant n < 0 ==> i == 1
      invariant result == Fact(i - 1)
    {
      result := result * i;
      i := i + 1;
    }
  }
}

=== FILE: js_string.dfy ===
/**
 * The JavaScript string built-ins the modelled code relies on, over
 * strings as sequences of characters: `includes` and the single
 * (first-occurrence) form of `replace` with a literal pattern.
 */
module JsString {

  /** pat occurs in text at position k. */
  predicate OccursAt(text: string, pat: string, k: nat)
  {
    k + |pat| <= |text| && text[k..k + |pat|] == pat
  }

  /** `text.includes(pat)`. */
  function Includes(text: string, pat: string): (b: bool)
    ensures b <==> exists k: nat :: OccursAt(text, pat, k)
    decreases |text|
  {
    if |pat| > |text| then
      assert forall k: nat :: !OccursAt(text, pat, k);
      false
    else if text[..|pat|] == pat then
      assert OccursAt(text, pat, 0);
      true
    else
      var b := Includes(text[1..], pat);
      if b then
        var k: nat :| OccursAt(text[1..], pat, k);
        assert OccursAt(text, pat, k + 1) by {
          assert text[k + 1..k + 1 + |pat|] == text[1..][k..k + |pat|];
        }
        true
      else
        assert !OccursAt(text, pat, 0);
        forall k: nat | 1 <= k && OccursAt(text, pat, k)
          ensures OccursAt(text[1..], pat, k - 1)
        {
          assert text[1..][k - 1..k - 1 + |pat|] == text[k..k + |pat|];
        }
        false
  }

  /** `s.indexOf(pat)`: the first position where pat occurs, or -1. */
  function IndexOf(s: string, pat: string): (k: int)
    ensures -1 <= k <= |s|
    ensures k == -1 ==> forall j: nat :: !OccursAt(s, pat, j)
    ensures k >= 0 ==> OccursAt(s, pat, k) && forall j: nat :: j < k ==> !OccursAt(s, pat, j)
    decreases |s|
  {
    if |pat| > |s| then -1
    else if s[..|pat|] == pat then
      assert OccursAt(s, pat, 0);
      0
    else
      var k := IndexOf(s[1..], pat);
      assert !OccursAt(s, pat, 0);
      ShiftOccurrence(s, pat);
      if k == -1 then
        assert forall j: nat :: !OccursAt(s, pat, j) by {
          forall j: nat | j >= 1
            ensures !OccursAt(s, pat, j)
          {
            assert !OccursAt(s[1..], pat, j - 1);
          }
        }
        -1
      else
        assert forall j: nat :: j < k + 1 ==> !OccursAt(s, pat, j) by {
          forall j: nat | 1 <= j < k + 1
            ensures !OccursAt(s, pat, j)
          {
            assert !OccursAt(s[1..], pat, j - 1);
          }
        }
        k + 1
  }

  /** `s.replace(pat, '')` with a string pattern: delete the first occurrence of pat, if any. */
  function RemoveFirst(s: string, pat: string): (r: string)
    ensures IndexOf(s, pat) == -1 <==> r == s && |pat| > 0
    ensures IndexOf(s, pat) >= 0 ==> |r| + |pat| == |s| && r[..IndexOf(s, pat)] == s[..IndexOf(s, pat)]
  {
    var k := IndexOf(s, pat);
    if k == -1 then s else s[..k] + s[k + |pat|..]
  }

  /** Putting pat back where it was removed restores the string; without an occurrence nothing changes. */
  lemma RemoveFirstRestores(s: string, pat: string)
    ensures IndexOf(s, pat) == -1 ==> RemoveFirst(s, pat) == s
    ensures IndexOf(s, pat) >= 0 ==>
              var k, r := IndexOf(s, pat), RemoveFirst(s, pat);
              k <= |r| && r[..k] + pat + r[k..] == s
  {
    var k := IndexOf(s, pat);
    if k >= 0 {
      var r := RemoveFirst(s, pat);
      assert r[..k] == s[..k];
      assert r[k..] == s[k + |pat|..];
      assert s == s[..k] + s[k..k + |pat|] + s[k + |pat|..];
    }
  }

  /** Occurrences in s after position 0 are the occurrences in s[1..], shifted by one. */
  lemma ShiftOccurrence(s: string, pat: string)
    requires |s| > 0
    ensures forall k: nat :: OccursAt(s, pat, k + 1) <==> OccursAt(s[1..], pat, k)
  {
    forall k: nat
      ensures OccursAt(s, pat, k + 1) <==> OccursAt(s[1..], pat, k)
    {
      if k + 1 + |pat| <= |s| {
        assert s[1..][k..k + |pat|] == s[k + 1..k + 1 + |pat|];
      }
    }
  }
}

=== FILE: keyboard.dfy ===
/**
 * `keyToUnit`: the keyboard shortcut that maps a key to the id of a unit.
 * Shift+digit symbols and the top letter row select units 1..10 by
 * position, digit keys select their own number (0 standing for 10), '-'
 * selects unit 11; the unit number then indexes the list of unit element
 * ids, from which the first "Unit" is deleted. Keys are single characters.
 */
module Keyboard {
  import ArrayUtil
  import JsString
  import NumberFormat

  const ShiftKeys: string := "!@#$%^&*()"
  const TopRowKeys: string := "QWERTYUIOP"

  /** What a call produces: no unit (null), a unit name, or a thrown TypeError. */
  datatype KeyOutcome = NoUnit | UnitName(name: string) | TypeError

  /** The unit number before the 0-to-10 correction: absent, a number, or NaN. */
  datatype UnitNumber = NotShortcut | Number(n: int) | NaN

  /** Characters JavaScript's string-to-number conversion skips as white space (so `isFinite` sees 0). */
  predicate IsJsWhiteSpace(c: char)
  {
    c == '\t' || c == '\n' || c == '\U{000B}' || c == '\U{000C}' || c == '\r' || c == ' '
    || c == '\U{00A0}' || c == '\U{1680}' || ('\U{2000}' <= c <= '\U{200A}')
    || c == '\U{2028}' || c == '\U{2029}' || c == '\U{202F}' || c == '\U{205F}'
    || c == '\U{3000}' || c == '\U{FEFF}'
  }

  /**
   * The branch chain of `keyToUnit` as written: `isFinite(key)` is also
   * true of a white-space key, for which `parseInt` gives NaN.
   */
  function ParseKeyAsWritten(c: char): UnitNumber
  {
    if c in ShiftKeys then Number(ArrayUtil.IndexOf(ShiftKeys, c) + 1)
    else if c in TopRowKeys then Number(ArrayUtil.IndexOf(TopRowKeys, c) + 1)
    else if NumberFormat.IsDigit(c) then Number(c as int - '0' as int)
    else if IsJsWhiteSpace(c) then NaN
    else if c == '-' then Number(11)
    else NotShortcut
  }

  /** `unitElementIDs[unit - 1].replace('Unit', '')`, with 0 read as 10. */
  function LookUp(unitIds: seq<string>, u: UnitNumber): KeyOutcome
  {
    match u
    case NotShortcut => NoUnit
    case NaN => TypeError
    case Number(n) =>
      var unit := if n == 0 then 10 else n;
      if 1 <= unit <= |unitIds| then UnitName(JsString.RemoveFirst(unitIds[unit - 1], "Unit"))
      else TypeError
  }

  /** No two positions of s hold the same character. */
  predicate DistinctChars(s: string)
  {
    forall i, j :: 0 <= i < j < |s| ==> s[i] != s[j]
  }

  /** A character that is neither a digit, white space nor '-'. */
  predicate PlainKey(c: char)
  {
    !NumberFormat.IsDigit(c) && !IsJsWhiteSpace(c) && c != '-'
  }

  /** The two key rows: ten distinct plain characters each, sharing none. */
  lemma KeyRows()
    ensures |ShiftKeys| == 10 && |TopRowKeys| == 10
    ensures DistinctChars(ShiftKeys) && DistinctChars(TopRowKeys)
    ensures forall i :: 0 <= i < 10 ==> PlainKey(ShiftKeys[i]) && PlainKey(TopRowKeys[i]) && TopRowKeys[i] !in ShiftKeys
  {
    assert ShiftKeys == ['!', '@', '#', '$', '%', '^', '&', '*', '(', ')'];
    assert TopRowKeys == ['Q', 'W', 'E', 'R', 'T', 'Y', 'U', 'I', 'O', 'P'];
  }

  /** In a string of distinct characters, the position of the i-th character is i. */
  lemma IndexOfDistinct(s: string, i: nat)
    requires DistinctChars(s) && i < |s|
    ensures ArrayUtil.IndexOf(s, s[i]) == i
  {
  }

  /** `keyToUnit(key)` as written. */
  function KeyToUnitAsWritten(unitIds: seq<string>, c: char): (r: KeyOutcome)
    ensures r == NoUnit <==> !(c in ShiftKeys || c in TopRowKeys || NumberFormat.IsDigit(c) || IsJsWhiteSpace(c) || c == '-')
    ensures IsJsWhiteSpace(c) && c !in ShiftKeys && c !in TopRowKeys ==> r == TypeError
  {
    LookUp(unitIds, ParseKeyAsWritten(c))
  }

  /** A white-space key throws instead of answering null. */
  lemma SpaceKeyThrows(unitIds: seq<string>)
    ensures KeyToUnitAsWritten(unitIds, ' ') == TypeError
  {
    KeyRows();
    assert ' ' !in ShiftKeys && ' ' !in TopRowKeys;
  }

  /** The evidently intended chain: only digit characters take the numeric branch. */
  function ParseKey(c: char): (u: UnitNumber)
    ensures u != NaN
    ensures u.Number? ==> 0 <= u.n <= 11
    ensures u.Number? <==> c in ShiftKeys || c in TopRowKeys || NumberFormat.IsDigit(c) || c == '-'
  {
    if c in ShiftKeys then Number(ArrayUtil.IndexOf(ShiftKeys, c) + 1)
    else if c in TopRowKeys then Number(ArrayUtil.IndexOf(TopRowKeys, c) + 1)
    else if NumberFormat.IsDigit(c) then Number(c as int - '0' as int)
    else if c == '-' then Number(11)
    else NotShortcut
  }

  /** `keyToUnit(key)` with the white-space case answering null. */
  function KeyToUnit(unitIds: seq<string>, c: char): (r: KeyOutcome)
    ensures r == NoUnit <==> !(c in ShiftKeys || c in TopRowKeys || NumberFormat.IsDigit(c) || c == '-')
    ensures |unitIds| >= 11 ==> r != TypeError
  {
    LookUp(unitIds, ParseKey(c))
  }

  /** The correction only changes the white-space keys. */
  lemma KeyToUnitAgreesOffWhiteSpace(unitIds: seq<string>, c: char)
    ensures !IsJsWhiteSpace(c) ==> KeyToUnit(unitIds, c) == KeyToUnitAsWritten(unitIds, c)
    ensures IsJsWhiteSpace(c) ==> KeyToUnit(unitIds, c) == NoUnit && KeyToUnitAsWritten(unitIds, c) == TypeError
  {
    KeyRows();
    if IsJsWhiteSpace(c) {
      assert c !in ShiftKeys && c !in TopRowKeys;
    }
  }

  /**
   * Keys in the same keyboard column pick the same unit: the i-th shifted
   * symbol, the i-th top-row letter and the digit key printed on that
   * column ("1234567890") all name unit i + 1.
   */
  lemma ColumnsAgree(unitIds: seq<string>, i: nat)
    requires i < 10
    ensures KeyToUnit(unitIds, ShiftKeys[i]) == KeyToUnit(unitIds, TopRowKeys[i])
    ensures KeyToUnit(unitIds, ShiftKeys[i]) == KeyToUnit(unitIds, "1234567890"[i])
    ensures |unitIds| >= 11 ==> KeyToUnit(unitIds, ShiftKeys[i]) == UnitName(JsString.RemoveFirst(unitIds[i], "Unit"))
  {
    ShiftKeyUnit(i);
    TopRowKeyUnit(i);
    DigitKeyUnit(i);
  }

  lemma ShiftKeyUnit(i: nat)
    requires i < 10
    ensures ParseKey(ShiftKeys[i]) == Number(i + 1)
  {
    KeyRows();
    IndexOfDistinct(ShiftKeys, i);
  }

  lemma TopRowKeyUnit(i: nat)
    requires i < 10
    ensures ParseKey(TopRowKeys[i]) == Number(i + 1)
  {
    KeyRows();
    IndexOfDistinct(TopRowKeys, i);
  }

  lemma DigitKeyUnit(i: nat)
    requires i < 10
    ensures ParseKey("1234567890"[i]) == Number(if i == 9 then 0 else i + 1)
  {
    var d := "1234567890"[i];
    assert "1234567890" == ['1', '2', '3', '4', '5', '6', '7', '8', '9', '0'];
    assert NumberFormat.IsDigit(d);
    assert d !in ShiftKeys && d !in TopRowKeys by {
      KeyRows();
      assert ShiftKeys == ['!', '@', '#', '$', '%', '^', '&', '*', '(', ')'];
      assert TopRowKeys == ['Q', 'W', 'E', 'R', 'T', 'Y', 'U', 'I', 'O', 'P'];
    }
  }
}

=== FILE: number_format.dfy ===
/**
 * Thousands separators in `formatRealNum`: when |number| >= 1000, the
 * integer part of the fixed-point rendering (the text before the first
 * '.') gets a comma at every match of `/\B(?=(\d{3})+(?!\d))/g`: a position
 * whose preceding character is a word character and that is followed by a
 * positive multiple of three digits and then no digit. The fraction is
 * kept. Below 1e21 the integer part is a digit string, where this means
 * grouping in threes from the right; from 1e21 on it is in exponential
 * form, which the regex leaves alone. Below 1000 the rendering is used as
 * it is. The rendering itself (`toFixed`) is an input string here.
 */
module NumberFormat {

  predicate IsDigit(c: char)
  {
    '0' <= c <= '9'
  }

  predicate AllDigits(s: string)
  {
    forall i :: 0 <= i < |s| ==> IsDigit(s[i])
  }

  /** Comma grouping, built from the right: the last three digits form a group. */
  function GroupDigits(s: string): (r: string)
    ensures |s| <= 3 ==> r == s
  {
    if |s| <= 3 then s
    else GroupDigits(s[..|s| - 3]) + "," + s[|s| - 3..]
  }

  /**
   * Commas placed by position alone, scanning s from position p: a comma
   * goes before position p exactly when p is not the first position and a
   * positive multiple of three characters follows up to the end. On a digit
   * string this is what the regex does (RegexReplaceOnDigits).
   */
  function PositionalGroupFrom(s: string, p: nat): string
    requires p <= |s|
    decreases |s| - p
  {
    if p == |s| then ""
    else Mark(|s|, p) + [s[p]] + PositionalGroupFrom(s, p + 1)
  }

  /** The comma, if any, that the positional reading puts before position p of an n-character string. */
  function Mark(n: nat, p: nat): string
  {
    if 0 < p && (n - p) % 3 == 0 then "," else ""
  }

  /** Three more characters to the right do not move the marks. */
  lemma MarkShift(n: nat, p: nat)
    requires p <= n
    ensures Mark(n + 3, p) == Mark(n, p)
  {
    assert (n + 3 - p) % 3 == (n - p) % 3;
  }

  /** With fewer than three characters left from p on, the positional reading inserts nothing. */
  lemma {:induction false} PositionalTailPlain(s: string, p: nat)
    requires p <= |s| && |s| - p <= 3 && (p == 0 || |s| - p < 3)
    ensures PositionalGroupFrom(s, p) == s[p..]
    decreases |s| - p
  {
    if p < |s| {
      PositionalTailPlain(s, p + 1);
      assert s[p..] == [s[p]] + s[p + 1..];
    }
  }

  /** Scanning s from p <= |t| equals scanning t = s minus its last three characters, then one more group. */
  lemma {:induction false} PositionalSplitLastGroup(s: string, p: nat)
    requires |s| > 3 && p <= |s| - 3
    ensures PositionalGroupFrom(s, p) == PositionalGroupFrom(s[..|s| - 3], p) + "," + s[|s| - 3..]
    decreases |s| - p
  {
    if p == |s| - 3 {
      LastGroupStart(s);
    } else {
      PositionalSplitLastGroup(s, p + 1);
      LastGroupStep(s, p);
    }
  }

  /** At the start of the last group the positional reading emits the comma and then the group. */
  lemma LastGroupStart(s: string)
    requires |s| > 3
    ensures PositionalGroupFrom(s, |s| - 3) == PositionalGroupFrom(s[..|s| - 3], |s| - 3) + "," + s[|s| - 3..]
  {
    var p := |s| - 3;
    PositionalTailPlain(s, p + 1);
    assert s[p..] == [s[p]] + s[p + 1..];
    assert PositionalGroupFrom(s[..p], p) == "";
  }

  /** Before the last group, s and t get the same mark and character at p. */
  lemma LastGroupStep(s: string, p: nat)
    requires |s| > 3 && p < |s| - 3
    requires PositionalGroupFrom(s, p + 1) == PositionalGroupFrom(s[..|s| - 3], p + 1) + "," + s[|s| - 3..]
    ensures PositionalGroupFrom(s, p) == PositionalGroupFrom(s[..|s| - 3], p) + "," + s[|s| - 3..]
  {
    var t, u := s[..|s| - 3], s[|s| - 3..];
    MarkShift(|t|, p);
    PositionalUnfold(s, p);
    PositionalUnfold(t, p);
    Associate(Mark(|s|, p) + [s[p]], PositionalGroupFrom(t, p + 1), u);
  }

  lemma PositionalUnfold(s: string, p: nat)
    requires p < |s|
    ensures PositionalGroupFrom(s, p) == Mark(|s|, p) + [s[p]] + PositionalGroupFrom(s, p + 1)
  {
  }

  lemma Associate(a: string, b: string, c: string)
    ensures a + (b + "," + c) == (a + b) + "," + c
  {
  }

  /** The right-to-left grouping puts commas where the positional reading does. */
  lemma {:induction false} GroupDigitsMatchesPositions(s: string)
    ensures GroupDigits(s) == PositionalGroupFrom(s, 0)
    decreases |s|
  {
    if |s| <= 3 {
      PositionalTailPlain(s, 0);
    } else {
      GroupDigitsMatchesPositions(s[..|s| - 3]);
      PositionalSplitLastGroup(s, 0);
    }
  }

  /** A character of the class `\w`. */
  predicate IsWordChar(c: char)
  {
    'a' <= c <= 'z' || 'A' <= c <= 'Z' || IsDigit(c) || c == '_'
  }

  /** `\B` at position p: word characters on both sides of p, or on neither. */
  predicate NonBoundary(s: string, p: nat)
    requires p <= |s|
  {
    (p > 0 && IsWordChar(s[p - 1])) == (p < |s| && IsWordChar(s[p]))
  }

  /** `(?=(\d{3})+(?!\d))` at position p: a positive multiple of three digits follows, and then no digit. */
  predicate GroupsFollow(s: string, p: nat)
    requires p <= |s|
  {
    exists k :: 1 <= k <= |s| && p + 3 * k <= |s| && AllDigits(s[p..p + 3 * k]) && (p + 3 * k == |s| || !IsDigit(s[p + 3 * k]))
  }

  /** Where `/\B(?=(\d{3})+(?!\d))/g` matches in s. */
  predicate RegexMatchesAt(s: string, p: nat)
    requires p <= |s|
  {
    NonBoundary(s, p) && GroupsFollow(s, p)
  }

  /** `s.replace(/\B(?=(\d{3})+(?!\d))/g, ',')`, from position p on: a comma at every match. */
  function RegexReplace(s: string, p: nat): (r: string)
    requires p <= |s|
    ensures |s| - p <= |r| <= 2 * (|s| - p)
    decreases |s| - p
  {
    if p == |s| then ""
    else (if RegexMatchesAt(s, p) then "," else "") + [s[p]] + RegexReplace(s, p + 1)
  }

  /** On a digit string the regex matches exactly at the inner positions with a multiple of three digits after them. */
  lemma RegexMatchOnDigits(s: string, p: nat)
    requires AllDigits(s) && p < |s|
    ensures RegexMatchesAt(s, p) <==> 0 < p && (|s| - p) % 3 == 0
  {
    if 0 < p && (|s| - p) % 3 == 0 {
      var k := (|s| - p) / 3;
      assert p + 3 * k == |s|;
      var t := s[p..p + 3 * k];
      forall i | 0 <= i < |t|
        ensures IsDigit(t[i])
      {
        assert t[i] == s[p + i];
      }
      assert AllDigits(t);
    } else if 0 < p {
      forall k | 1 <= k && p + 3 * k <= |s|
        ensures p + 3 * k != |s| && IsDigit(s[p + 3 * k])
      {
        assert (|s| - p) != 3 * k;
      }
    }
  }

  /** On a digit string the regex replacement and the positional reading agree. */
  lemma {:induction false} RegexReplaceOnDigits(s: string, p: nat)
    requires AllDigits(s) && p <= |s|
    ensures RegexReplace(s, p) == PositionalGroupFrom(s, p)
    decreases |s| - p
  {
    if p < |s| {
      RegexReplaceOnDigits(s, p + 1);
      RegexMatchOnDigits(s, p);
    }
  }

  /** On a digit string the right-to-left grouping inserts commas exactly where the regex does. */
  lemma GroupDigitsMatchesRegex(s: string)
    requires AllDigits(s)
    ensures GroupDigits(s) == RegexReplace(s, 0)
  {
    GroupDigitsMatchesPositions(s);
    RegexReplaceOnDigits(s, 0);
  }

  /** The regex replacement only adds commas. */
  lemma {:induction false} RegexReplaceRoundTrip(s: string, p: nat)
    requires p <= |s| && ',' !in s
    ensures RemoveCommas(RegexReplace(s, p)) == s[p..]
    decreases |s| - p
  {
    if p < |s| {
      RegexReplaceRoundTrip(s, p + 1);
      var m := if RegexMatchesAt(s, p) then "," else "";
      RemoveCommasStep(m, s[p], RegexReplace(s, p + 1));
      assert s[p..] == [s[p]] + s[p + 1..];
    }
  }

  /** Deleting commas from an optional comma, a non-comma character and a rest. */
  lemma RemoveCommasStep(m: string, c: char, rest: string)
    requires (m == "" || m == ",") && c != ','
    ensures RemoveCommas(m + [c] + rest) == [c] + RemoveCommas(rest)
  {
    RemoveCommasAppend(m + [c], rest);
    RemoveCommasAppend(m, [c]);
    assert RemoveCommas(m) == "";
    assert RemoveCommas([c]) == [c];
  }

  /** Where the regex matches nowhere from p on, the replacement leaves s[p..] as it is. */
  lemma {:induction false} NoMatchFrom(s: string, p: nat)
    requires p <= |s|
    requires forall q :: p <= q < |s| ==> !RegexMatchesAt(s, q)
    ensures RegexReplace(s, p) == s[p..]
    decreases |s| - p
  {
    if p < |s| {
      NoMatchFrom(s, p + 1);
      assert s[p..] == [s[p]] + s[p + 1..];
    }
  }

  /** A non-digit at q rules out the lookahead at q. */
  lemma NoGroupsAtNonDigit(s: string, q: nat)
    requires q < |s| && !IsDigit(s[q])
    ensures !GroupsFollow(s, q)
  {
    forall k | 1 <= k <= |s| && q + 3 * k <= |s|
      ensures !AllDigits(s[q..q + 3 * k])
    {
      assert s[q..q + 3 * k][0] == s[q];
    }
  }

  /**
   * From 1e21 on, `toFixed` gives an integer part of the form d + "e+" + e
   * with one digit d and a two- or three-digit exponent e. The regex finds
   * no match in it, so the comma step leaves it unchanged.
   */
  lemma ExponentialFormUnchanged(d: char, e: string)
    requires IsDigit(d) && 2 <= |e| <= 3 && AllDigits(e)
    ensures RegexReplace([d] + "e+" + e, 0) == [d] + "e+" + e
  {
    var s := [d] + "e+" + e;
    assert s[0] == d && s[1] == 'e' && s[2] == '+' && s[3] == e[0];
    forall q | 0 <= q < |s|
      ensures !RegexMatchesAt(s, q)
    {
      if q == 0 || q == 3 {
        assert !NonBoundary(s, q);
      } else if q == 1 || q == 2 {
        NoGroupsAtNonDigit(s, q);
      } else {
        assert q + 3 > |s|;
      }
    }
    NoMatchFrom(s, 0);
    assert s[0..] == s;
  }

  /** Deleting every comma. */
  function RemoveCommas(s: string): (r: string)
    ensures ',' !in r
    ensures |r| <= |s|
  {
    if |s| == 0 then ""
    else (if s[0] == ',' then "" else [s[0]]) + RemoveCommas(s[1..])
  }

  lemma {:induction false} RemoveCommasAppend(a: string, b: string)
    ensures RemoveCommas(a + b) == RemoveCommas(a) + RemoveCommas(b)
    decreases |a|
  {
    if |a| == 0 {
      assert a + b == b;
    } else {
      assert (a + b)[1..] == a[1..] + b;
      RemoveCommasAppend(a[1..], b);
    }
  }

  lemma {:induction false} RemoveCommasNone(s: string)
    requires ',' !in s
    ensures RemoveCommas(s) == s
    decreases |s|
  {
    if |s| > 0 {
      assert ',' !in s[1..];
      RemoveCommasNone(s[1..]);
    }
  }

  /** Deleting the commas gives back the original digits. */
  lemma {:induction false} GroupDigitsRoundTrip(s: string)
    requires ',' !in s
    ensures RemoveCommas(GroupDigits(s)) == s
    decreases |s|
  {
    if |s| <= 3 {
      RemoveCommasNone(s);
    } else {
      var t, u := s[..|s| - 3], s[|s| - 3..];
      assert s == t + u;
      assert ',' !in t && ',' !in u;
      var g := GroupDigits(t);
      GroupDigitsRoundTrip(t);
      RemoveCommasAppend(g + ",", u);
      RemoveCommasAppend(g, ",");
      RemoveCommasNone(u);
      assert RemoveCommas(",") == "";
      assert RemoveCommas(g + ",") == t;
      assert GroupDigits(s) == g + "," + u;
    }
  }

  /** `string.split(sep)`: the pieces between separators, always at least one. */
  function Split(s: string, sep: char): (parts: seq<string>)
    ensures |parts| >= 1
    ensures forall k :: 0 <= k < |parts| ==> sep !in parts[k]
    ensures |parts[0]| <= |s| && s[..|parts[0]|] == parts[0]
    ensures |parts[0]| < |s| ==> s[|parts[0]|] == sep
  {
    if |s| == 0 then [""]
    else
      var rest := Split(s[1..], sep);
      if s[0] == sep then [""] + rest
      else [[s[0]] + rest[0]] + rest[1..]
  }

  /** A string free of the separator splits into itself. */
  lemma {:induction false} SplitNone(s: string, sep: char)
    requires sep !in s
    ensures Split(s, sep) == [s]
    decreases |s|
  {
    if |s| > 0 {
      assert sep !in s[1..];
      SplitNone(s[1..], sep);
      assert [s[0]] + s[1..] == s;
    }
  }

  lemma {:induction false} SplitJoin(a: string, sep: char, b: string)
    ensures Split(a + [sep] + b, sep) == Split(a, sep) + Split(b, sep)
    decreases |a|
  {
    if |a| == 0 {
      assert a + [sep] + b == [sep] + b;
      assert ([sep] + b)[1..] == b;
    } else {
      assert (a + [sep] + b)[1..] == a[1..] + [sep] + b;
      SplitJoin(a[1..], sep, b);
    }
  }

  lemma DigitsHaveNoComma(s: string)
    requires AllDigits(s)
    ensures ',' !in s
  {
    assert forall i :: 0 <= i < |s| ==> s[i] != ',';
  }

  /** Concatenation of a sequence of strings. */
  function Concat(parts: seq<string>): string
  {
    if |parts| == 0 then "" else Concat(parts[..|parts| - 1]) + parts[|parts| - 1]
  }

  /**
   * Splitting a grouped digit string at its commas gives groups that
   * concatenate back to the digits; the first group holds one to three
   * digits and every later group exactly three.
   */
  lemma {:induction false} GroupDigitsShape(s: string)
    requires |s| >= 1 && AllDigits(s)
    ensures var groups := Split(GroupDigits(s), ',');
            && Concat(groups) == s
            && 1 <= |groups[0]| <= 3
            && (forall k :: 1 <= k < |groups| ==> |groups[k]| == 3)
            && (forall k :: 0 <= k < |groups| ==> AllDigits(groups[k]))
    decreases |s|
  {
    var groups := Split(GroupDigits(s), ',');
    if |s| <= 3 {
      DigitsHaveNoComma(s);
      SplitNone(s, ',');
      assert Concat(groups) == Concat([]) + s;
    } else {
      var t, u := s[..|s| - 3], s[|s| - 3..];
      assert AllDigits(u) by {
        forall i | 0 <= i < |u|
          ensures IsDigit(u[i])
        {
          assert u[i] == s[|s| - 3 + i];
        }
      }
      DigitsHaveNoComma(u);
      GroupDigitsShape(t);
      SplitJoin(GroupDigits(t), ',', u);
      SplitNone(u, ',');
      var front := Split(GroupDigits(t), ',');
      assert groups == front + [u];
      assert groups[..|groups| - 1] == front;
      assert Concat(groups) == Concat(front) + u;
      assert s == t + u;
      forall k | 0 <= k < |groups|
        ensures AllDigits(groups[k])
      {
        if k == |front| {
          assert groups[k] == u;
        } else {
          assert groups[k] == front[k];
        }
      }
    }
  }

  /** `parts.join(sep)`: the parts with one separator between neighbours. */
  function Join(parts: seq<string>, sep: char): (r: string)
    ensures |parts| >= 1 ==> |parts[0]| <= |r| && r[..|parts[0]|] == parts[0]
  {
    if |parts| == 0 then ""
    else if |parts| == 1 then parts[0]
    else parts[0] + [sep] + Join(parts[1..], sep)
  }

  /** `s.split(sep).join(sep)` is s: joining undoes splitting. */
  lemma {:induction false} JoinSplit(s: string, sep: char)
    ensures Join(Split(s, sep), sep) == s
    decreases |s|
  {
    if |s| > 0 {
      var rest := Split(s[1..], sep);
      JoinSplit(s[1..], sep);
      if s[0] == sep {
        assert ([""] + rest)[1..] == rest;
      } else if |rest| > 1 {
        var parts := [[s[0]] + rest[0]] + rest[1..];
        assert parts[1..] == rest[1..];
        assert Join(rest, sep) == rest[0] + [sep] + Join(rest[1..], sep);
      }
      assert [s[0]] + s[1..] == s;
    }
  }

  /** Replacing the first part before joining replaces the text up to the first separator. */
  lemma JoinReplaceHead(parts: seq<string>, g: string, sep: char)
    requires |parts| >= 1
    ensures |parts[0]| <= |Join(parts, sep)|
    ensures Join([g] + parts[1..], sep) == g + Join(parts, sep)[|parts[0]|..]
  {
    if |parts| > 1 {
      assert ([g] + parts[1..])[1..] == parts[1..];
    }
  }

  /**
   * The comma step of `formatRealNum` on the fixed-point rendering of |number|:
   * when |number| >= 1000, split at '.', apply the regex to the first part
   * and join the parts again. Since joining undoes splitting, the result is
   * the rewritten integer part followed by the rest of the rendering; when
   * that part is all digits, it is grouped in threes from the right.
   */
  function InsertCommas(atLeastThousand: bool, fixed: string): (r: string)
    ensures !atLeastThousand ==> r == fixed
    ensures atLeastThousand ==>
              var head := Split(fixed, '.')[0];
              r == RegexReplace(head, 0) + fixed[|head|..]
    ensures atLeastThousand && AllDigits(Split(fixed, '.')[0]) ==>
              var head := Split(fixed, '.')[0];
              r == GroupDigits(head) + fixed[|head|..]
  {
    if !atLeastThousand then fixed
    else
      var parts := Split(fixed, '.');
      JoinSplit(fixed, '.');
      JoinReplaceHead(parts, RegexReplace(parts[0], 0), '.');
      assert AllDigits(parts[0]) ==> GroupDigits(parts[0]) == RegexReplace(parts[0], 0) by {
        if AllDigits(parts[0]) {
          GroupDigitsMatchesRegex(parts[0]);
        }
      }
      Join([RegexReplace(parts[0], 0)] + parts[1..], '.')
  }

  /**
   * The comma step only adds commas: deleting them restores the rendering
   * when the rendering had none, and below 1000 nothing changes at all.
   */
  lemma InsertCommasRoundTrip(atLeastThousand: bool, fixed: string)
    requires ',' !in fixed
    ensures RemoveCommas(InsertCommas(atLeastThousand, fixed)) == fixed
    ensures !atLeastThousand ==> InsertCommas(atLeastThousand, fixed) == fixed
  {
    if atLeastThousand {
      var head := Split(fixed, '.')[0];
      var tail := fixed[|head|..];
      assert fixed == head + tail;
      assert ',' !in head && ',' !in tail;
      RegexReplaceRoundTrip(head, 0);
      assert head[0..] == head;
      RemoveCommasAppend(RegexReplace(head, 0), tail);
      RemoveCommasNone(tail);
    } else {
      RemoveCommasNone(fixed);
    }
  }
}

=== FILE: page_flip.dfy ===
/**
 * "Page flipping" of the curve-sketching and Euler's-method lessons: a page
 * counter per lesson, bounded by that lesson's last page, moved by one with
 * 'next' or any other mode (previous). The DOM show/hide calls are modelled
 * as the set of (lesson, page) elements currently shown.
 */
module PageFlip {

  /** Current page of every lesson and the page elements currently visible. */
  datatype State = State(currentPages: map<string, int>, shown: set<(string, int)>)

  /** `lastPages`: how many pages each lesson has. */
  const LastPages: map<string, int> := map["curveSketch" := 7, "eulersMethod" := 6]

  /** `currentPages` when the page loads. */
  const InitialPages: map<string, int> := map["curveSketch" := 1, "eulersMethod" := 1]

  /** Every lesson's counter lies within [1, lastPage]. */
  predicate Valid(lastPages: map<string, int>, s: State)
  {
    forall l :: l in s.currentPages ==> l in lastPages && 1 <= s.currentPages[l] <= lastPages[l]
  }

  lemma InitialIsValid(shown: set<(string, int)>)
    ensures Valid(LastPages, State(InitialPages, shown))
    ensures InitialPages.Keys == LastPages.Keys
  {
  }

  /**
   * The loop over pages 1..lastPage: hide every page of the lesson except
   * `page`, then show `page`.
   */
  function Redisplay(shown: set<(string, int)>, lesson: string, page: int, lastPage: int): (r: set<(string, int)>)
    ensures (lesson, page) in r
    ensures forall p :: 1 <= p <= lastPage && p != page ==> (lesson, p) !in r
    ensures forall e: (string, int) :: e != (lesson, page) && (e.0 != lesson || !(1 <= e.1 <= lastPage)) ==> (e in r <==> e in shown)
  {
    (shown - set p: int | 1 <= p <= lastPage && p != page :: (lesson, p)) + {(lesson, page)}
  }

  /** `pageFlipToggle(lesson, mode)`. */
  function PageFlipToggle(lastPages: map<string, int>, s: State, lesson: string, mode: string): (s': State)
    requires lesson in s.currentPages && lesson in lastPages
    ensures s'.currentPages.Keys == s.currentPages.Keys
    ensures forall l :: l in s.currentPages && l != lesson ==> s'.currentPages[l] == s.currentPages[l]
    ensures forall e: (string, int) :: e.0 != lesson ==> (e in s'.shown <==> e in s.shown)
    ensures Valid(lastPages, s) ==> Valid(lastPages, s')
    ensures mode == "next" && s.currentPages[lesson] >= lastPages[lesson] ==> s' == s
    ensures mode != "next" && s.currentPages[lesson] <= 1 ==> s' == s
    ensures mode == "next" && s.currentPages[lesson] < lastPages[lesson] ==>
              s'.currentPages[lesson] == s.currentPages[lesson] + 1
    ensures mode != "next" && s.currentPages[lesson] > 1 ==>
              s'.currentPages[lesson] == s.currentPages[lesson] - 1
    ensures (mode == "next" && s.currentPages[lesson] < lastPages[lesson]) || (mode != "next" && s.currentPages[lesson] > 1) ==>
              forall p :: 1 <= p <= lastPages[lesson] ==> ((lesson, p) in s'.shown <==> p == s'.currentPages[lesson])
  {
    var currentPage := s.currentPages[lesson];
    var lastPage := lastPages[lesson];
    if mode == "next" then
      if currentPage >= lastPage then s
      else
        State(s.currentPages[lesson := currentPage + 1], Redisplay(s.shown, lesson, currentPage + 1, lastPage))
    else
      if currentPage <= 1 then s
      else
        State(s.currentPages[lesson := currentPage - 1], Redisplay(s.shown, lesson, currentPage - 1, lastPage))
  }

  /** Flipping forward and then back returns to the same page with only that page of the lesson shown. */
  lemma NextThenPrevious(lastPages: map<string, int>, s: State, lesson: string)
    requires lesson in s.currentPages && lesson in lastPages
    requires s.currentPages[lesson] < lastPages[lesson]
    requires s.currentPages[lesson] >= 1
    ensures var s2 := PageFlipToggle(lastPages, PageFlipToggle(lastPages, s, lesson, "next"), lesson, "previous");
            s2.currentPages == s.currentPages
            && (lesson, s.currentPages[lesson]) in s2.shown
            && forall p :: 1 <= p <= lastPages[lesson] && p != s.currentPages[lesson] ==> (lesson, p) !in s2.shown
  {
    var s1 := PageFlipToggle(lastPages, s, lesson, "next");
    assert s1.currentPages[lesson] == s.currentPages[lesson] + 1;
    var s2 := PageFlipToggle(lastPages, s1, lesson, "previous");
    assert s2.currentPages[lesson] == s.currentPages[lesson];
    assert s2.currentPages == s.currentPages;
  }
}

=== FILE: riemann.dfy ===
/**
 * Riemann sums: `riemannSumLoop` evaluates the function at n equally spaced
 * points and adds the heights; `riemannSum` picks the first point by rule,
 * runs the trapezoid rule in a loop of its own, and, when progress display
 * is on and the count exceeds twice the chunk size, splits the work into
 * floor(n / c) chunks of c points plus a final chunk of n % c points.
 * Arithmetic is exact (reals); the integrand is a parameter.
 */
module Riemann {

  datatype SumType = Left | Right | Midpoint | Trapezoid

  /** x after k steps of `x += width`. */
  function Advance(x: real, width: real, k: nat): real
  {
    if k == 0 then x else Advance(x, width, k - 1) + width
  }

  /** With exact arithmetic, k steps of width move x by k * width. */
  lemma {:induction false} AdvanceIsLinear(x: real, width: real, k: nat)
    ensures Advance(x, width, k) == x + (k as real) * width
  {
    if k > 0 {
      AdvanceIsLinear(x, width, k - 1);
      assert ((k - 1) as real) * width + width == (k as real) * width;
    }
  }

  lemma {:induction false} AdvanceAdd(x: real, width: real, a: nat, b: nat)
    ensures Advance(Advance(x, width, a), width, b) == Advance(x, width, a + b)
  {
    if b > 0 {
      AdvanceAdd(x, width, a, b - 1);
    }
  }

  /** The points x, x + width, ..., reached by n - 1 steps of `x += width`. */
  function Samples(x: real, width: real, n: nat): (r: seq<real>)
    ensures |r| == n
  {
    if n == 0 then [] else Samples(x, width, n - 1) + [Advance(x, width, n - 1)]
  }

  lemma {:induction false} SamplesAt(x: real, width: real, n: nat, i: nat)
    requires i < n
    ensures Samples(x, width, n)[i] == x + (i as real) * width
  {
    if i < n - 1 {
      SamplesAt(x, width, n - 1, i);
    } else {
      AdvanceIsLinear(x, width, i);
    }
  }

  /** Heights of f at the given points, added from left to right. */
  function SumOf(f: real -> real, xs: seq<real>): real
  {
    if |xs| == 0 then 0.0 else SumOf(f, xs[..|xs| - 1]) + f(xs[|xs| - 1])
  }

  /** One more point adds one more height. */
  lemma SumOfSnoc(f: real -> real, x: real, width: real, i: nat)
    ensures SumOf(f, Samples(x, width, i + 1)) == SumOf(f, Samples(x, width, i)) + f(Advance(x, width, i))
  {
    assert Samples(x, width, i + 1)[..i] == Samples(x, width, i);
  }

  lemma {:induction false} SumOfAppend(f: real -> real, xs: seq<real>, ys: seq<real>)
    ensures SumOf(f, xs + ys) == SumOf(f, xs) + SumOf(f, ys)
    decreases |ys|
  {
    if |ys| == 0 {
      assert xs + ys == xs;
    } else {
      assert (xs + ys)[..|xs + ys| - 1] == xs + ys[..|ys| - 1];
      SumOfAppend(f, xs, ys[..|ys| - 1]);
    }
  }

  /** a points from x followed by b points from where they stopped are a + b points from x. */
  lemma {:induction false} SamplesAppend(x: real, width: real, a: nat, b: nat)
    ensures Samples(x, width, a) + Samples(Advance(x, width, a), width, b) == Samples(x, width, a + b)
  {
    if b > 0 {
      SamplesAppend(x, width, a, b - 1);
      AdvanceAdd(x, width, a, b - 1);
    }
  }

  /** `riemannSumLoop(func, x, width, runs)`: add func(x) and step x by width, runs times. */
  method RiemannSumLoop(f: real -> real, x0: real, width: real, runs: nat) returns (totalHeight: real)
    ensures totalHeight == SumOf(f, Samples(x0, width, runs))
  {
    totalHeight := 0.0;
    var x := x0;
    var i := 0;
    while i < runs
      invariant i <= runs
      invariant x == Advance(x0, width, i)
      invariant totalHeight == SumOf(f, Samples(x0, width, i))
    {
      totalHeight := totalHeight + f(x);
      x := x + width;
      i := i + 1;
    }
  }

  /** Integer facts about the chunk counter i <= floor(n / c). */
  lemma ChunkCounter(n: nat, c: nat, i: nat)
    requires c >= 1 && i <= n / c
    ensures i * c <= n
    ensures i < n / c ==> (i + 1) * c <= n
    ensures i == n / c ==> n - i * c == n % c
  {
    var q := n / c;
    assert n == q * c + n % c;
    MulMonotone(i, q, c);
    if i < q {
      MulMonotone(i + 1, q, c);
    }
  }

  lemma MulMonotone(a: nat, b: nat, c: nat)
    requires a <= b
    ensures a * c <= b * c
  {
    assert b * c == a * c + (b - a) * c;
  }

  /**
   * The points evaluated by `calculateChunk(i)` when the running x is given:
   * a full chunk of c points while i < floor(n / c), then the n % c rest.
   */
  function ChunkedSamples(x: real, width: real, n: nat, c: nat, i: nat): seq<real>
    requires c >= 1
    decreases n / c - i
  {
    if i >= n / c then Samples(x, width, n % c)
    else Samples(x, width, c) + ChunkedSamples(x + (c as real) * width, width, n, c, i + 1)
  }

  lemma {:induction false} ChunkedSamplesFrom(x0: real, width: real, n: nat, c: nat, i: nat, done: nat)
    requires c >= 1 && i <= n / c && done == i * c && done <= n
    ensures ChunkedSamples(Advance(x0, width, done), width, n, c, i)
            == Samples(Advance(x0, width, done), width, n - done)
    decreases n / c - i
  {
    ChunkCounter(n, c, i);
    if i < n / c {
      MulSucc(i, c);
      ChunkedSamplesFrom(x0, width, n, c, i + 1, done + c);
      ChunkSamplesStep(x0, width, done, c, n - done - c);
      ChunkJump(x0, width, done, c);
      ChunkedSamplesUnfold(Advance(x0, width, done), width, n, c, i);
      assert c + (n - done - c) == n - done;
    }
  }

  /** Stepping x by `chunkSize * width` at once lands where chunkSize single steps would. */
  lemma ChunkJump(x0: real, width: real, done: nat, c: nat)
    ensures Advance(x0, width, done) + (c as real) * width == Advance(x0, width, done + c)
  {
    AdvanceIsLinear(Advance(x0, width, done), width, c);
    AdvanceAdd(x0, width, done, c);
  }

  lemma ChunkedSamplesUnfold(x: real, width: real, n: nat, c: nat, i: nat)
    requires c >= 1 && i < n / c
    ensures ChunkedSamples(x, width, n, c, i)
            == Samples(x, width, c) + ChunkedSamples(x + (c as real) * width, width, n, c, i + 1)
  {
  }

  /** One full chunk followed by the points after it. */
  lemma ChunkSamplesStep(x0: real, width: real, done: nat, c: nat, rest: nat)
    ensures Samples(Advance(x0, width, done), width, c)
            + Samples(Advance(x0, width, done) + (c as real) * width, width, rest)
            == Samples(Advance(x0, width, done), width, c + rest)
  {
    var x := Advance(x0, width, done);
    AdvanceIsLinear(x, width, c);
    SamplesAppend(x, width, c, rest);
  }

  lemma MulSucc(i: nat, c: nat)
    ensures (i + 1) * c == i * c + c
  {
  }

  /**
   * The chunked path evaluates exactly the n sample points of the direct
   * call, in the same order.
   */
  lemma ChunkedSamplesCover(x: real, width: real, n: nat, c: nat)
    requires c >= 1
    ensures ChunkedSamples(x, width, n, c, 0) == Samples(x, width, n)
    ensures |ChunkedSamples(x, width, n, c, 0)| == n
  {
    ChunkedSamplesFrom(x, width, n, c, 0, 0);
  }

  /** Adding the sum of the next chunk extends the running total by that chunk. */
  lemma ChunkAdvance(f: real -> real, x0: real, width: real, done: nat, c: nat, total: real, chunk: real)
    requires total == SumOf(f, Samples(x0, width, done))
    requires chunk == SumOf(f, Samples(Advance(x0, width, done), width, c))
    ensures total + chunk == SumOf(f, Samples(x0, width, done + c))
    ensures Advance(x0, width, done) + (c as real) * width == Advance(x0, width, done + c)
  {
    SamplesAppend(x0, width, done, c);
    SumOfAppend(f, Samples(x0, width, done), Samples(Advance(x0, width, done), width, c));
    ChunkJump(x0, width, done, c);
  }

  /**
   * `calculateChunk(i)` of `riemannSum`: once i reaches floor(n / c), add a
   * final `riemannSumLoop` over n % c points and stop; otherwise add one
   * over c points, advance x by c * width and continue with i + 1 (on the
   * next timer tick). Ghost `done` counts the points already summed.
   */
  method CalculateChunk(f: real -> real, width: real, n: nat, c: nat, i: nat, x: real, totalHeight: real,
                        ghost x0: real, ghost done: nat)
    returns (finalHeight: real)
    requires c >= 1 && i <= n / c && done == i * c
    requires x == Advance(x0, width, done)
    requires totalHeight == SumOf(f, Samples(x0, width, done))
    ensures finalHeight == SumOf(f, Samples(x0, width, n))
    decreases n / c - i
  {
    ChunkCounter(n, c, i);
    if i >= n / c {
      var rest := RiemannSumLoop(f, x, width, n % c);
      ChunkAdvance(f, x0, width, done, n % c, totalHeight, rest);
      finalHeight := totalHeight + rest;
    } else {
      var chunk := RiemannSumLoop(f, x, width, c);
      ChunkAdvance(f, x0, width, done, c, totalHeight, chunk);
      MulSucc(i, c);
      finalHeight := CalculateChunk(f, width, n, c, i + 1, x + (c as real) * width, totalHeight + chunk, x0, done + c);
    }
  }

  /** The chunked path of `riemannSum`: start `calculateChunk` at 0 with nothing summed. */
  method ChunkedRiemann(f: real -> real, x0: real, width: real, n: nat, c: nat) returns (totalHeight: real)
    requires c >= 1
    ensures totalHeight == SumOf(f, Samples(x0, width, n))
  {
    totalHeight := CalculateChunk(f, width, n, c, 0, x0, 0.0, x0, 0);
  }

  /** The first sample point of the left, right and midpoint rules. */
  function StartX(sumType: SumType, start: real, width: real): (x: real)
    requires sumType != Trapezoid
    ensures width >= 0.0 ==> start <= x <= start + width
    ensures width != 0.0 ==> (x == start <==> sumType == Left)
    ensures sumType == Midpoint ==> x - start == (start + width) - x
  {
    match sumType
    case Right => start + width
    case Left => start
    case Midpoint => start + width / 2.0
  }

  /** The points from start + width follow those from start by one step. */
  lemma ShiftedAdvance(start: real, width: real, i: nat)
    ensures Advance(start + width, width, i) == Advance(start, width, i) + width
  {
    AdvanceIsLinear(start + width, width, i);
    AdvanceIsLinear(start, width, i);
  }

  /** The trapezoid heights of the first i panels: each panel contributes the mean of its two edge heights. */
  function Panels(f: real -> real, start: real, width: real, i: nat): real
  {
    if i == 0 then 0.0
    else Panels(f, start, width, i - 1) + (f(Advance(start, width, i - 1)) + f(Advance(start, width, i - 1) + width)) / 2.0
  }

  /** The mean of the left-endpoint and right-endpoint sums over i panels. */
  function EndpointMean(f: real -> real, start: real, width: real, i: nat): real
  {
    (SumOf(f, Samples(start, width, i)) + SumOf(f, Samples(start + width, width, i))) / 2.0
  }

  /** Panel by panel, the trapezoid heights add up to the mean of the left and right sums. */
  lemma {:induction false} PanelsAreEndpointMean(f: real -> real, start: real, width: real, i: nat)
    ensures Panels(f, start, width, i) == EndpointMean(f, start, width, i)
  {
    if i > 0 {
      PanelsAreEndpointMean(f, start, width, i - 1);
      EndpointMeanStep(f, start, width, i - 1);
    }
  }

  lemma EndpointMeanStep(f: real -> real, start: real, width: real, i: nat)
    ensures EndpointMean(f, start, width, i + 1)
            == EndpointMean(f, start, width, i)
               + (f(Advance(start, width, i)) + f(Advance(start, width, i) + width)) / 2.0
  {
    var y := Advance(start, width, i);
    ShiftedAdvance(start, width, i);
    SumOfSnoc(f, start, width, i);
    SumOfSnoc(f, start + width, width, i);
    var l := SumOf(f, Samples(start, width, i));
    var r := SumOf(f, Samples(start + width, width, i));
    assert EndpointMean(f, start, width, i + 1) == ((l + f(y)) + (r + f(y + width))) / 2.0;
  }

  /**
   * The trapezoid loop of `riemannSum`: each panel averages the previous
   * right-edge height with the new one. Its area is the mean of the
   * left-endpoint and right-endpoint sums times the width.
   */
  method TrapezoidLoop(f: real -> real, start: real, width: real, n: nat) returns (area: real)
    ensures area == EndpointMean(f, start, width, n) * width
  {
    var totalHeight := 0.0;
    var x := start;
    var b := f(x);
    var i := 0;
    while i < n
      invariant i <= n
      invariant x == Advance(start, width, i)
      invariant b == f(x)
      invariant totalHeight == Panels(f, start, width, i)
    {
      var a := b;
      x := x + width;
      b := f(x);
      totalHeight := totalHeight + (a + b) / 2.0;
      i := i + 1;
    }
    PanelsAreEndpointMean(f, start, width, n);
    area := totalHeight * width;
  }

  /**
   * The left, right and midpoint rules from the first point x on: chunked
   * when progress display is on and n exceeds twice the chunk size, direct
   * otherwise; the same area either way.
   */
  method EndpointSum(f: real -> real, x: real, width: real, n: nat, displayProgress: bool, chunkSize: nat)
    returns (area: real)
    requires displayProgress ==> chunkSize >= 1
    ensures area == SumOf(f, Samples(x, width, n)) * width
  {
    var totalHeight;
    if displayProgress && n > chunkSize * 2 {
      totalHeight := ChunkedRiemann(f, x, width, n, chunkSize);
    } else {
      totalHeight := RiemannSumLoop(f, x, width, n);
    }
    area := totalHeight * width;
  }

  /**
   * `riemannSum(func, [start, end], rectangles, sumType, displayProgress, chunkSize)`:
   * the area it returns (or, on the progress path, displays). With exact
   * arithmetic the progress path changes nothing about the result.
   */
  method RiemannSum(f: real -> real, start: real, end: real, rectangles: nat, sumType: SumType,
                    displayProgress: bool, chunkSize: nat) returns (area: real)
    requires rectangles >= 1
    requires displayProgress ==> chunkSize >= 1
    ensures var width := (end - start) / (rectangles as real);
            sumType != Trapezoid ==>
              area == SumOf(f, Samples(StartX(sumType, start, width), width, rectangles)) * width
    ensures var width := (end - start) / (rectangles as real);
            sumType == Trapezoid ==> area == EndpointMean(f, start, width, rectangles) * width
  {
    var width := (end - start) / (rectangles as real);
    if sumType == Trapezoid {
      area := TrapezoidLoop(f, start, width, rectangles);
      return;
    }
    area := EndpointSum(f, StartX(sumType, start, width), width, rectangles, displayProgress, chunkSize);
  }
}

=== FILE: section_search.dfy ===
/**
 * `searchForSection`: normalise the query and every title (lower case,
 * typographic apostrophe to straight apostrophe, hyphen to space) and
 * collect, in section order, the id of every section whose title or one of
 * whose extra keywords contains the query. Lower-casing is a per-character
 * parameter.
 */
module SectionSearch {
  import ArrayUtil
  import JsString

  /** One section: its id and its displayed title. */
  datatype Section = Section(id: string, title: string)

  /** After lower-casing: ’ becomes ' and - becomes a space. */
  function Substitute(c: char): (d: char)
    ensures d != '\U{2019}' && d != '-'
  {
    if c == '\U{2019}' then '\'' else if c == '-' then ' ' else c
  }

  /** `s.toLowerCase().replace(/’/g, "'").replace(/-/g, ' ')`. */
  function Normalize(lower: char -> char, s: string): (r: string)
    ensures |r| == |s|
    ensures '\U{2019}' !in r && '-' !in r
  {
    if |s| == 0 then "" else [Substitute(lower(s[0]))] + Normalize(lower, s[1..])
  }

  /** Normalising twice changes nothing when lower-casing is idempotent and fixes the two replacement characters. */
  lemma {:induction false} NormalizeIdempotent(lower: char -> char, s: string)
    requires forall c :: lower(lower(c)) == lower(c)
    requires lower('\'') == '\'' && lower(' ') == ' '
    ensures Normalize(lower, Normalize(lower, s)) == Normalize(lower, s)
  {
    if |s| > 0 {
      NormalizeIdempotent(lower, s[1..]);
      var c := lower(s[0]);
      assert Normalize(lower, s)[1..] == Normalize(lower, s[1..]);
    }
  }

  /** The strings checked for a section: its title, then its keywords if it has any. */
  function TitlesToCheck(keywords: map<string, seq<string>>, sec: Section): (titles: seq<string>)
    ensures |titles| >= 1 && titles[0] == sec.title
    ensures sec.id in keywords ==> titles[1..] == keywords[sec.id]
    ensures sec.id !in keywords ==> titles == [sec.title]
  {
    [sec.title] + (if sec.id in keywords then keywords[sec.id] else [])
  }

  /** The inner loop: does any of the titles, normalised, include the normalised query? */
  function AnyIncludes(lower: char -> char, titles: seq<string>, query: string): (b: bool)
    ensures b <==> exists j :: 0 <= j < |titles| && JsString.Includes(Normalize(lower, titles[j]), query)
  {
    if |titles| == 0 then false
    else if JsString.Includes(Normalize(lower, titles[0]), query) then true
    else
      var b := AnyIncludes(lower, titles[1..], query);
      assert forall j :: 1 <= j < |titles| ==> titles[j] == titles[1..][j - 1];
      b
  }

  predicate Matches(lower: char -> char, keywords: map<string, seq<string>>, sec: Section, query: string)
  {
    AnyIncludes(lower, TitlesToCheck(keywords, sec), Normalize(lower, query))
  }

  function Ids(sections: seq<Section>): (ids: seq<string>)
    ensures |ids| == |sections|
    ensures forall j :: 0 <= j < |sections| ==> ids[j] == sections[j].id
  {
    if |sections| == 0 then [] else [sections[0].id] + Ids(sections[1..])
  }

  predicate Distinct(ids: seq<string>)
  {
    forall i, j :: 0 <= i < j < |ids| ==> ids[i] != ids[j]
  }

  /**
   * `searchForSection(query)` over the sections in their iteration order.
   * Every id reported belongs to a matching section and every matching
   * section is reported.
   */
  function SearchForSection(lower: char -> char, sections: seq<Section>, keywords: map<string, seq<string>>,
                            query: string): (results: seq<string>)
    ensures forall id :: id in results <==>
              exists j :: 0 <= j < |sections| && sections[j].id == id && Matches(lower, keywords, sections[j], query)
    ensures ArrayUtil.IsSubsequence(results, Ids(sections))
    decreases |sections|
  {
    if |sections| == 0 then []
    else
      var rest := SearchForSection(lower, sections[1..], keywords, query);
      assert Ids(sections) == [sections[0].id] + Ids(sections[1..]);
      assert forall j :: 1 <= j < |sections| ==> sections[j] == sections[1..][j - 1];
      if Matches(lower, keywords, sections[0], query) then
        assert ([sections[0].id] + rest)[1..] == rest;
        [sections[0].id] + rest
      else
        ArrayUtil.SubsequencePrepend(rest, Ids(sections[1..]), sections[0].id);
        rest
  }

  /** A subsequence of a duplicate-free list is duplicate-free. */
  lemma {:induction false} SubsequenceDistinct(s: seq<string>, t: seq<string>)
    requires ArrayUtil.IsSubsequence(s, t) && Distinct(t)
    ensures Distinct(s)
    ensures forall x :: x in s ==> x in t
    decreases |t|
  {
    if |s| > 0 {
      assert Distinct(t[1..]);
      if s[0] == t[0] {
        SubsequenceDistinct(s[1..], t[1..]);
        assert t[0] !in t[1..];
        forall i, j | 0 <= i < j < |s|
          ensures s[i] != s[j]
        {
          assert s[j] == s[1..][j - 1];
          if i > 0 {
            assert s[i] == s[1..][i - 1];
          } else {
            assert s[j] in t[1..];
          }
        }
        forall x | x in s
          ensures x in t
        {
          if x != s[0] {
            assert x in s[1..];
            assert x in t[1..];
          }
        }
      } else {
        SubsequenceDistinct(s, t[1..]);
      }
    }
  }

  /** Section ids are object keys, hence distinct; so no id is reported twice. */
  lemma SearchReportsEachIdOnce(lower: char -> char, sections: seq<Section>, keywords: map<string, seq<string>>,
                                query: string)
    requires Distinct(Ids(sections))
    ensures Distinct(SearchForSection(lower, sections, keywords, query))
  {
    SubsequenceDistinct(SearchForSection(lower, sections, keywords, query), Ids(sections));
  }
}

=== FILE: trapezoid_exact.dfy ===
/**
 * Exactness of the trapezoid rule of `riemannSum` on affine integrands,
 * with exact arithmetic: the rule reproduces the integral of m * y + k over
 * [a, b] for every panel count.
 */
module TrapezoidExact {
  import Riemann

  /** The affine integrand y -> m * y + k. */
  function Affine(m: real, k: real): real -> real
  {
    y => m * y + k
  }

  /** An antiderivative of m * y + k. */
  function Primitive(m: real, k: real, y: real): real
  {
    m * y * y / 2.0 + k * y
  }

  /** One panel of the trapezoid rule is exact for an affine integrand. */
  lemma PanelExact(m: real, k: real, y: real, width: real)
    ensures (Affine(m, k)(y) + Affine(m, k)(y + width)) / 2.0 * width
            == Primitive(m, k, y + width) - Primitive(m, k, y)
  {
    assert (y + width) * (y + width) == y * y + 2.0 * y * width + width * width;
  }

  /** Adding a panel whose area is exact to a prefix whose area is exact. */
  lemma ExtendExact(total: real, h: real, p: real, width: real, start: real, mid: real, end: real)
    requires total == h + p && h * width == mid - start && p * width == end - mid
    ensures total * width == end - start
  {
  }

  /** After i panels the rule has covered exactly the integral from a to the i-th point. */
  lemma {:induction false} PanelsExact(m: real, k: real, a: real, width: real, i: nat)
    ensures Riemann.Panels(Affine(m, k), a, width, i) * width
            == Primitive(m, k, Riemann.Advance(a, width, i)) - Primitive(m, k, a)
  {
    if i > 0 {
      var f := Affine(m, k);
      var y := Riemann.Advance(a, width, i - 1);
      PanelsExact(m, k, a, width, i - 1);
      PanelExact(m, k, y, width);
      ExtendExact(Riemann.Panels(f, a, width, i), Riemann.Panels(f, a, width, i - 1),
                  (f(y) + f(y + width)) / 2.0, width,
                  Primitive(m, k, a), Primitive(m, k, y), Primitive(m, k, Riemann.Advance(a, width, i)));
    }
  }

  /**
   * The trapezoid rule is exact for affine integrands: with n >= 1 panels
   * over [a, b], the mean of the left and right sums times the width is
   * m(b^2 - a^2)/2 + k(b - a), the integral of m * y + k, whatever n is.
   */
  lemma TrapezoidExactOnAffine(m: real, k: real, a: real, b: real, n: nat)
    requires n >= 1
    ensures Riemann.EndpointMean(Affine(m, k), a, (b - a) / (n as real), n) * ((b - a) / (n as real))
            == m * (b * b - a * a) / 2.0 + k * (b - a)
  {
    var width := (b - a) / (n as real);
    PanelsExact(m, k, a, width, n);
    Riemann.PanelsAreEndpointMean(Affine(m, k), a, width, n);
    Riemann.AdvanceIsLinear(a, width, n);
    assert (n as real) * width == b - a;
    assert Riemann.Advance(a, width, n) == b;
  }
}
